=== FILE: README.md ===
# springbox: a Dafny model of the spring-mass scene and its host page

springbox simulates one point mass on a spring, under gravity and linear
drag, in the browser. The physics lives in a small Rust core compiled to
WebAssembly (`rustwasm/src/lib.rs`). The page (`static/index.js`) drives it.
It steps the scene from a timer with a clamped timestep and redraws it on
animation frames. It validates the parameter fields before writing them
into the scene, lets the user pause, resume and reset the body, and lets
the user drag the body around.

This project models both halves over Dafny's `real`:

- `vector.dfy`, module `Vector`: the `[f32; 2]` vector helpers (`scaled`,
  `added`, `subtracted`, `normalized`, `with_mag`). The magnitude that `hypot`
  would compute is a parameter, pinned down by `IsMagnitudeOf` (non-negative,
  and its square is the sum of the squared components).
- `physics.dfy`, module `Physics`:
  - `BodyForces`, `Body` and `Scene` as immutable datatypes;
  - `forces_on_body`, in the closed form `k (eq - pos) + m g - c v`, proved
    equal to the core's `with_mag` construction;
  - the semi-implicit Euler step of `Body::tick` and `Scene::tick`;
  - the constructors, getters and setters.
- `motion.dfy`, module `Motion`: what the step does over time:
  - zero-length steps do nothing;
  - the acceleration splits into a spring, a gravity and a drag term;
  - force-free motion is uniform and independent of the step size;
  - drag alone never speeds the body up while `c dt <= 2m`, and at mass 1
    (the page's initial mass), the largest drag and step it does;
  - the axes evolve independently;
  - the worked example (15 m from equilibrium, k = 30, c = 4, one 1/30 s step)
    ends at x = 14.5.
- `host.dfy`, module `Host`: the page's policy:
  - the `validate` table and the validate-then-apply rule of `fieldInput`;
  - the timestep clamp of `timeoutTickAction`, with `prevTimeoutTime`
    starting at minus infinity;
  - `resetPosition`, `createEngine`, and the `tick`/`cancel`/`active` state
    machine of `createSceneTicker`;
  - the whole page as an event system (field input, timer, frame, buttons,
    drag). Every session keeps the page safe (`Host.Safe`): the scene stays
    within the validators' ranges, so over the reals the step's division by
    the mass is always defined, and timer and frame loop run together.
    Outside a drag, the ticker runs exactly when the button says so in every
    session that does not toggle during a drag. A toggle during a drag
    breaks this; see
    "## Findings". The page model runs with either the `active` setter the
    code has or a repaired one, and under the repaired one the button stays
    truthful outside a drag in every session. Mouse-down cancels the ticker;
    a toggle during the drag can start it again, and the timer then steps
    the scene while the disc is held.

Where the Rust core mutates `&mut self`, the model returns a new `Scene`.
Browser scheduling is represented only by the handles it returns. Those
handles are fresh positive numbers supplied by the caller, and 0 means
"none". `Date.now()` and `Math.random()` are parameters.

The Rust core's `tick` accepts any timestep, and every setter writes its
value unchecked. Range checking happens only in the page's validators, so
that is where the model puts it. The only precondition the core gets is
`mass != 0`, which real division needs. Over the reals, `Host.Safe` shows
the page never breaks it; with f32 storage it can (see "## Left out").

## Model

| member | source | states |
|---|---|---|
| `Vector.Normalized` | rustwasm/src/lib.rs:48-56 | The result is the zero vector exactly when the magnitude is 0, and then the input is zero too. Otherwise it has unit length, and scaling it back by the magnitude recovers the input. |
| `Vector.WithMag` | rustwasm/src/lib.rs:58-60 | For a non-zero vector the result is the vector scaled by `m / \|v\|`: it keeps the direction (reversed for negative `m`) and has squared length `m * m`. For the zero vector it is zero. |
| `Vector.WithMagOfScaledMagnitude` | rustwasm/src/lib.rs:48-60 | Giving `v` the length `k * \|v\|` is the same as scaling `v` by `k`, also for the zero vector. |
| `Vector.DistanceSymmetric` | rustwasm/src/lib.rs:28-30 | `a.dist(b)` and `b.dist(a)` are the same number. |
| `Physics.NewScene` | rustwasm/src/lib.rs:77-153 | A new scene has a unit mass at rest at the origin, spring rate 100 with equilibrium at the origin, gravity (0, -9.81) and drag 0.5. Its acceleration and stored force are zero. |
| `Physics.SpringForceMatchesSource` | rustwasm/src/lib.rs:88-92 | The core's spring force, `with_mag(eq - pos, k * dist)`, equals Hooke's law `k (eq - pos)` for every position, including the equilibrium itself. |
| `Physics.ForcesOnBodyMatchesSource` | rustwasm/src/lib.rs:88-100 | The closed-form force sum used by the model is the core's `forces_on_body`. |
| `Physics.SpringForceZeroAtEquilibrium` | rustwasm/src/lib.rs:89-92 | At the equilibrium point the spring exerts no force. |
| `Physics.SpringForceRestoring` | rustwasm/src/lib.rs:89-92 | With a non-negative rate the spring force never points away from the equilibrium. |
| `Physics.SpringForceMagnitude` | rustwasm/src/lib.rs:91-92 | With a non-negative rate, the spring force has magnitude `k` times the distance to the equilibrium, as the `F = k * x` comment says. |
| `Physics.DragForceOpposesVelocity` | rustwasm/src/lib.rs:97 | With a non-negative coefficient, the drag force never has a component along the velocity. |
| `Physics.BodyTick` | rustwasm/src/lib.rs:127-136 | Semi-implicit Euler. The new acceleration times the mass is the stored force. The velocity change is the acceleration times the step. The position change is the new velocity, not the old one, times the step. Mass and stored force are kept. |
| `Physics.SceneTick` | rustwasm/src/lib.rs:156-159 | The stored force becomes the environment's force on the body as it was before the step. The body then steps with that force. The environment and the mass are unchanged. |
| `Physics.SetPosition` | rustwasm/src/lib.rs:161-175 | Both position getters return the written pair. Velocity, mass, derived fields and environment are untouched. |
| `Physics.SetVelocity` | rustwasm/src/lib.rs:187-201 | Both velocity getters return the written pair. Position, mass, derived fields and environment are untouched. |
| `Physics.SetMass` | rustwasm/src/lib.rs:203-211 | The mass getter returns the written mass. Kinematics and environment are untouched. |
| `Physics.SetSpringRate` | rustwasm/src/lib.rs:213-221 | The spring-rate getter returns the written rate. The other parameters and the body are untouched. |
| `Physics.SetSpringEquilibriumPosition` | rustwasm/src/lib.rs:223-227 | The equilibrium is the written point. Rate, drag, gravity and the body are untouched. |
| `Physics.SetGravityAcceleration` | rustwasm/src/lib.rs:229-243 | Both gravity getters return the written pair. The other parameters and the body are untouched. |
| `Physics.SetGravityAccelerationX` | rustwasm/src/lib.rs:245-248 | The x getter returns the written value. The y component, the other parameters and the body are untouched. |
| `Physics.SetGravityAccelerationY` | rustwasm/src/lib.rs:250-253 | The y getter returns the written value. The x component, the other parameters and the body are untouched. |
| `Physics.SetDrag` | rustwasm/src/lib.rs:255-263 | The drag getter returns the written coefficient. The other parameters and the body are untouched. |
| `Physics.GravityAxisSettersComposeToPair` | rustwasm/src/lib.rs:229-253 | Setting gravity's x and then y, in either order, is the same as setting the pair. |
| `Physics.SettersOfCurrentValuesAreIdentity` | rustwasm/src/lib.rs:161-263 | Writing back what the getters read leaves the scene exactly as it was. |
| `Motion.TickZeroKeepsState` | rustwasm/src/lib.rs:127-136 | A step of length zero leaves position and velocity unchanged. |
| `Motion.AccelerationDecomposition` | rustwasm/src/lib.rs:88-100 | The step's acceleration is `(k/m)(eq - pos) + g - (c/m) v`. |
| `Motion.GravityAccelerationIndependentOfMass` | rustwasm/src/lib.rs:95 | Without spring and drag, the acceleration is exactly the gravity setting, whatever the mass. |
| `Motion.ForceFreeTick` | rustwasm/src/lib.rs:127-136 | With no spring, drag or gravity, a step keeps the velocity and moves the body by `v dt`. |
| `Motion.TickN` | rustwasm/src/lib.rs:156-159 | Repeated steps never change the environment or the mass. |
| `Motion.FreeMotion` | rustwasm/src/lib.rs:127-136 | Force-free, `n` steps of `dt` keep the velocity and move the body by `v (n dt)`. |
| `Motion.StepSizeInvariance` | rustwasm/src/lib.rs:127-136 | Force-free, cutting a time span into any number of equal steps ends at the same position, `p + v T`. |
| `Motion.DragOnlyVelocity` | rustwasm/src/lib.rs:97 | With drag as the only force, a step multiplies the velocity by `1 - c dt / m`. |
| `Motion.DragOnlySpeedDoesNotGrow` | rustwasm/src/lib.rs:97 | With drag as the only force, a positive mass, non-negative drag and `c dt <= 2m`, a step never increases the speed. |
| `Motion.DragOnlyDirectionKept` | rustwasm/src/lib.rs:97 | With drag as the only force and `c dt <= m`, a step never turns the velocity around: the new velocity has a non-negative dot product with the old one. |
| `Motion.DragCanAmplifyWithinPageRanges` | rustwasm/src/lib.rs:127-136 | At mass 1 and drag 80, values the page's validators accept, one step of the largest timestep 1/30 s multiplies any non-zero velocity by -5/3, so the speed grows. |
| `Motion.AxesIndependent` | rustwasm/src/lib.rs:88-136 | The x components after a step depend only on the x components before it and on the scalar parameters. |
| `Motion.AxesIndependentY` | rustwasm/src/lib.rs:88-136 | The y components after a step depend only on the y components before it and on the scalar parameters. |
| `Motion.ExampleStep` | rustwasm/src/lib.rs:127-136 | Unit mass, k = 30, c = 4, no gravity, at (15, 0) and at rest: one 1/30 s step gives acceleration -450, velocity -15 and position 14.5. |
| `Motion.ExampleSceneFromSetters` | rustwasm/src/lib.rs:148-263 | The worked example is reachable from a new scene through the public setters. |
| `Host.ValidatorsAcceptExactly` | static/index.js:162-177 | The mass field accepts exactly values above 0. Spring rate accepts exactly values from 0 up. Drag accepts exactly [0, 80]. The gravity fields accept every value. |
| `Host.Write` | static/index.js:233 | Assigning a property makes its getter return the value, leaves every other editable property alone, and keeps position, velocity and equilibrium. |
| `Host.FieldInput` | static/index.js:228-238 | The field is flagged exactly when the property has a validator and it rejects the value. A flagged input leaves the scene unchanged. Otherwise the value is written and reads back. |
| `Host.ValidatorsAreThePolicy` | static/index.js:162-177 | From a scene within the parameter ranges, a validator accepts a value exactly when writing it keeps the scene within the ranges. |
| `Host.FieldInputPreservesPolicy` | static/index.js:228-238 | No input event takes the scene out of the parameter ranges. |
| `Host.Timestep` | static/index.js:71-75 | The timestep is always in [0, 1/30]. It is 1/30 on the first tick. It equals the elapsed seconds when those are in range, is 1/30 when they are above the range, and is 0 when the clock went backwards. |
| `Host.TimeoutTick` | static/index.js:95-97 | Scheduling the timer records its new handle and touches nothing else. |
| `Host.AnimationFrameTick` | static/index.js:99-101 | Scheduling a frame records its handle, which makes the ticker active. |
| `Host.StartTicking` | static/index.js:103-106 | `tick` leaves the ticker active, holding the timer and frame handles the browser returned. The previous timer time is kept. |
| `Host.Cancel` | static/index.js:108-117 | After `cancel` both handles are 0, so the ticker is inactive. The previous timer time is kept. |
| `Host.SetActive` | static/index.js:118-124 | After assigning `active`, the ticker is active exactly when `true` was assigned to an inactive ticker. A started ticker holds the handles passed in; otherwise both handles are cleared. The handles agree afterwards. |
| `Host.SetActiveRepaired` | static/index.js:118-124 | The repaired setter: afterwards the ticker is active exactly when `true` was assigned, a running ticker assigned `true` is left as it was, a started one holds the handles passed in, and `false` clears both handles. |
| `Host.SettersDifferOnlyOnRunningTrue` | static/index.js:118-124 | The code's setter and the repaired one give different tickers exactly when `true` is assigned to a running ticker. |
| `Host.AssignActive` | static/index.js:118-124 | With the code's setter the ticker runs exactly when `true` met a stopped ticker; with the repaired one, exactly when `true` was assigned. A ticker that starts holds the handles passed in. Either keeps the handles agreeing. |
| `Host.SetActiveTrueWhileActiveCancels` | static/index.js:118-124 | Assigning `true` to a running ticker stops it. |
| `Host.CreateEngine` | static/index.js:128-145 | A new engine has position within 15 and velocity within 240 on each axis, mass 1, spring rate 30, drag 4 and default gravity. It is within the parameter ranges and its ticker is idle. |
| `Host.TimeoutTickAction` | static/index.js:74-87 | A timer callback steps the scene by the clamped timestep, records `now` as the previous time, reschedules the timer, and leaves the frame handle, and so `active`, as it was. |
| `Host.TimeoutTickActionPreservesPolicy` | static/index.js:74-87 | A timer callback keeps the scene within the parameter ranges. |
| `Host.ResetPosition` | static/index.js:253-258 | The body is at the origin and at rest. The environment, the mass and the derived fields are unchanged. |
| `Host.ResetPositionKeepsParameters` | static/index.js:253-256 | A reset neither enters nor leaves the parameter ranges, and resetting twice is resetting once. |
| `Host.Toggle` | static/index.js:249-251 | The button flag is negated. With the code's setter the ticker runs afterwards exactly when the new flag is true and the ticker was not running before; with the repaired setter, exactly when the new flag is true. The scene is untouched. |
| `Host.ToggleKeepsTickerInSync` | static/index.js:249-251 | If the flag and the ticker agree before a toggle, they agree after it, with either setter. |
| `Host.DragGestureRestoresFlag` | static/index.js:307-331 | Cancelling on mouse-down and assigning the button flag on mouse-up leaves the ticker running exactly when the flag says so. |
| `Host.StartUpAgreesWithFlag` | static/index.js:158-337 | At start-up the ticker runs, matching the initial `active: true`, and the first timer step is 1/30 s. |
| `Host.StartPage` | static/index.js:221-337 | The freshly loaded page is safe and in sync, not dragging, with the ticker running and the button showing "Stop". |
| `Host.Step` | static/index.js:74-331 | Every event that can occur, a toggle during a drag included, keeps the page safe. Every event but a toggle during a drag keeps it in sync. Under the repaired setter every event keeps the button truthful. An input applies the field rule, a timer callback steps by the clamped timestep, and drag start and drag move put the body under the mouse, drag start stops the ticker, a drag frame or release writes the estimated velocity, the reset button applies `ResetPosition`, and frame callbacks and toggles leave the scene alone. Only the toggle button changes the flag. |
| `Host.Run` | static/index.js:74-337 | Any sequence of events keeps the page safe. A sequence without a toggle during a drag keeps it in sync. Under the repaired setter every sequence keeps the button truthful outside a drag. Without a toggle, the flag stays as it was. |
| `Host.ToggleDuringDragDesyncs` | static/index.js:118-124 | With the code's setter, on a paused page, mouse-down on the disc, a toggle, then mouse-up leave the flag saying "running" and the ticker stopped. |
| `Host.ToggleDuringDragStartsTicker` | static/index.js:249-331 | With either setter, on a paused page, mouse-down on the disc and then a toggle leave the disc held with the ticker running, so a timer callback can step the scene mid-drag. |
| `Host.ToggleDuringDragRepaired` | static/index.js:118-124 | With the repaired setter the same three events leave the flag saying "running" and the ticker running. |

## Left out

- f32 arithmetic. Every operation is exact over the reals: no rounding, no overflow, no NaN or infinity.
- `hypot`. `mag` and `dist` are not computed. The model takes the magnitude as a parameter constrained to be the Euclidean length.
- `is_finite` and `hasFinitePosVel`, and the divergence failsafe in `timeoutTickAction` (static/index.js:80-84). Over the reals position and velocity are always finite, so the failsafe never fires.
- String-to-number coercion. The input fields deliver strings, which JavaScript's comparisons and the wasm boundary convert to numbers. The model receives the number.
- The `temp` editing buffer, `fieldChange` and the Vue reactive getters. These are display state only.
- `roundF32` and `toFixed` formatting, SVG coordinate transforms, and DOM and Vue setup.
- The mouse-velocity estimate of the drag gesture. It reads `Date.now()` and the mouse history. The position under the mouse, the velocity written on each animation frame of a drag (`DragFrame`), and the velocity written on release are event parameters.
- `setTimeout`, `requestAnimationFrame`, `clearTimeout` and `cancelAnimationFrame` themselves. Only their handles are modelled.
- The generated wasm-bindgen glue and the asynchronous module loading.
- The commented-out `cis`, `angle_to` and per-axis position setters.
- f32 underflow of the mass. A mass such as `1e-50` passes the `> 0` validator but is stored as the f32 value 0 (rustwasm/src/lib.rs:204-206). `1 / mass` is then infinite, and the failsafe resets the body on every timer step. Over the reals this cannot happen.
- Physics.BodyTick: requires a non-zero mass, which the core does not check. Over the reals the division needs it. Over the reals the page never violates it (`Host.Safe`); with f32 storage it can, as the line above says.
- Physics.SceneTick: requires a non-zero mass, for the same reason.
- Host.TimeoutTickAction: requires a non-zero mass, for the same reason. Over the reals `Host.Safe` guarantees it for every timer event of a session.
- Motion.DragOnlySpeedDoesNotGrow: holds only when `c dt <= 2m`. For a larger step the explicit drag term overshoots by more than the velocity, and the speed grows. The page's ranges allow this: mass 1, drag 80 and a 1/30 s step multiply the velocity by -5/3 (`Motion.DragCanAmplifyWithinPageRanges`).
- Host.Run: with the code's setter, the ticker matches the button only in sessions without a toggle during a drag. The "## Findings" row below shows the session that breaks it.

## Findings

| source | as written | input that shows it | evidently intended | confidence | as-written member | corrected member |
|---|---|---|---|---|---|---|
| static/index.js:118-124 | `set active(true)` on a running ticker cancels it, since only `true` on a stopped ticker reaches `tick()` and every other case reaches `cancel()`. | On a paused page, press the mouse on the disc (the ticker is cancelled), press Space on the focused "▶ Resume" button (the flag becomes true, the ticker starts), release the mouse (`active = true` on the running ticker cancels it). The button reads "Stop" while nothing runs. | Assigning `true` keeps or starts the ticker, `false` cancels it: `if (value) { if (!this.active) this.tick(); } else this.cancel();`. Under it the button is truthful outside a drag after every session. | medium, not executed | `Host.ToggleDuringDragDesyncs` | `Host.SetActiveRepaired` (used by `Host.Step` and `Host.Run` with `Repaired`) |

=== FILE: host.dfy ===
/** The host-side policy of static/index.js around the physics core: the
    parameter validators, the validate-then-apply rule of the input fields,
    the clamped timestep of the timer callback, the position reset and the
    `active` state machine of the scene ticker.

    Browser scheduling is abstracted: `setTimeout` and `requestAnimationFrame`
    are represented only by the handles they return, which the caller passes
    in as fresh positive numbers; `Date.now()` and `Math.random()` are
    parameters too. */
module Host {
  import opened Vector
  import Physics

  const MaxTimestep: real := 1.0 / 30.0
  const InitialPositionRadius: real := 15.0
  const InitialVelocityRadius: real := 240.0
  const InitialMass: real := 1.0
  const InitialSpringRate: real := 30.0
  const InitialDrag: real := 4.0
  const MaxDrag: real := 80.0

  // ---------------------------------------------------------------------------
  // Validators

  /** The kinds of check in the `validate` table. `isFinite` holds of every
      real, since non-finite numbers are outside this model. */
  datatype Check = Positive | NonNegative | WithinDragRange | IsFinite

  predicate Accepts(check: Check, value: real) {
    match check
    case Positive => value > 0.0
    case NonNegative => value >= 0.0
    case WithinDragRange => 0.0 <= value && value <= MaxDrag
    case IsFinite => true
  }

  /** The scene properties the input fields edit (`data-property-name`). */
  datatype Field = Mass | SpringRate | Drag | GravityAccelerationX | GravityAccelerationY

  /** The `validate` table of the page. */
  const Validate: map<Field, Check> := map[
    Mass := Positive,
    SpringRate := NonNegative,
    Drag := WithinDragRange,
    GravityAccelerationX := IsFinite,
    GravityAccelerationY := IsFinite
  ]

  /** The mass field accepts exactly the positive values, the spring-rate
      field exactly the non-negative ones, the drag field exactly [0, 80] and
      the gravity fields every (finite) value. */
  lemma ValidatorsAcceptExactly(value: real)
    ensures Mass in Validate && (Accepts(Validate[Mass], value) <==> value > 0.0)
    ensures SpringRate in Validate && (Accepts(Validate[SpringRate], value) <==> value >= 0.0)
    ensures Drag in Validate && (Accepts(Validate[Drag], value) <==> 0.0 <= value <= 80.0)
    ensures GravityAccelerationX in Validate && Accepts(Validate[GravityAccelerationX], value)
    ensures GravityAccelerationY in Validate && Accepts(Validate[GravityAccelerationY], value)
  {
  }

  /** Reading a property through the scene's getter. */
  function Read(s: Physics.Scene, f: Field): real {
    match f
    case Mass => Physics.Mass(s)
    case SpringRate => Physics.SpringRate(s)
    case Drag => Physics.Drag(s)
    case GravityAccelerationX => Physics.GravityAccelerationX(s)
    case GravityAccelerationY => Physics.GravityAccelerationY(s)
  }

  /** Assigning a property (`engine.sceneBody[propertyName] = value`) calls
      the scene's setter: the property reads back as written, every other
      property keeps its value, and position, velocity and equilibrium stay. */
  function Write(s: Physics.Scene, f: Field, value: real): (r: Physics.Scene)
    ensures Read(r, f) == value
    ensures forall g: Field :: g != f ==> Read(r, g) == Read(s, g)
    ensures r.body.position == s.body.position && r.body.velocity == s.body.velocity
    ensures r.environment.springEquilibriumPosition == s.environment.springEquilibriumPosition
  {
    match f
    case Mass => Physics.SetMass(s, value)
    case SpringRate => Physics.SetSpringRate(s, value)
    case Drag => Physics.SetDrag(s, value)
    case GravityAccelerationX => Physics.SetGravityAccelerationX(s, value)
    case GravityAccelerationY => Physics.SetGravityAccelerationY(s, value)
  }

  /** What an `input` event leaves behind: the scene, and whether the field
      is marked with the `error` class. */
  datatype InputOutcome = InputOutcome(scene: Physics.Scene, flagged: bool)

  /** `fieldInput`: apply the value when the property's validator accepts it
      or when the property has no validator; otherwise flag the field and
      leave the scene alone. */
  function FieldInput(validators: map<Field, Check>, f: Field, value: real, s: Physics.Scene): (r: InputOutcome)
    ensures r.flagged <==> f in validators && !Accepts(validators[f], value)
    ensures r.flagged ==> r.scene == s
    ensures !r.flagged ==> r.scene == Write(s, f, value) && Read(r.scene, f) == value
  {
    var accepted := if f in validators then Accepts(validators[f], value) else true;
    if accepted then InputOutcome(Write(s, f, value), false) else InputOutcome(s, true)
  }

  /** The parameter ranges the page keeps the scene in. A positive mass is
      what makes the unchecked division in the step well defined. */
  predicate Policy(s: Physics.Scene) {
    Physics.Mass(s) > 0.0 && Physics.SpringRate(s) >= 0.0
    && 0.0 <= Physics.Drag(s) <= MaxDrag
  }

  /** The validators are exactly the policy: from a scene within the policy,
      the page's validator accepts a value iff writing it keeps the scene
      within the policy. */
  lemma ValidatorsAreThePolicy(s: Physics.Scene, f: Field, value: real)
    requires Policy(s)
    ensures f in Validate
    ensures Accepts(Validate[f], value) <==> Policy(Write(s, f, value))
  {
  }

  /** Hence no input event can take the scene out of the policy. */
  lemma FieldInputPreservesPolicy(f: Field, value: real, s: Physics.Scene)
    requires Policy(s)
    ensures Policy(FieldInput(Validate, f, value, s).scene)
  {
    ValidatorsAreThePolicy(s, f, value);
  }

  // ---------------------------------------------------------------------------
  // Timestep clamp

  /** The previous timer time: `-Infinity` before the first tick. */
  datatype Instant = NegativeInfinity | At(ms: real)

  /** Elapsed seconds as JavaScript computes them: `(now - prev) / 1000`,
      which is `+Infinity` when `prev` is `-Infinity`. */
  datatype Seconds = Finite(value: real) | PositiveInfinity

  function Elapsed(prev: Instant, now: real): Seconds {
    match prev
    case NegativeInfinity => PositiveInfinity
    case At(ms) => Finite((now - ms) / 1000.0)
  }

  /** `Math.min(MAX_TIMESTEP, x)`. */
  function MinMaxTimestep(x: Seconds): real {
    match x
    case PositiveInfinity => MaxTimestep
    case Finite(v) => if v < MaxTimestep then v else MaxTimestep
  }

  /** `Math.max(0, x)`. */
  function MaxZero(x: real): real {
    if x > 0.0 then x else 0.0
  }

  /** The timestep `timeoutTickAction` passes to `tick`: always in
      [0, MAX_TIMESTEP]; the elapsed seconds themselves when they lie in that
      range; MAX_TIMESTEP on the first tick and after a long pause; zero if
      the clock went backwards. */
  function Timestep(prev: Instant, now: real): (dt: real)
    ensures 0.0 <= dt <= MaxTimestep
    ensures prev == NegativeInfinity ==> dt == MaxTimestep
    ensures prev.At? && 0.0 <= (now - prev.ms) / 1000.0 <= MaxTimestep ==> dt == (now - prev.ms) / 1000.0
    ensures prev.At? && (now - prev.ms) / 1000.0 > MaxTimestep ==> dt == MaxTimestep
    ensures prev.At? && now < prev.ms ==> dt == 0.0
  {
    MaxZero(MinMaxTimestep(Elapsed(prev, now)))
  }

  // ---------------------------------------------------------------------------
  // Scene ticker

  /** The closure state of `createSceneTicker`. A handle of 0 means "none". */
  datatype Ticker = Ticker(timeoutHandle: nat, animationFrameHandle: nat, prevTimeoutTime: Instant)

  const NewTicker: Ticker := Ticker(0, 0, NegativeInfinity)

  /** The `active` getter: only the animation-frame handle counts. */
  predicate Active(t: Ticker) {
    t.animationFrameHandle != 0
  }

  /** `timeoutTick`: schedule the next timer callback. */
  function TimeoutTick(t: Ticker, handle: nat): (r: Ticker)
    requires handle > 0
    ensures r.timeoutHandle == handle
    ensures r.animationFrameHandle == t.animationFrameHandle && r.prevTimeoutTime == t.prevTimeoutTime
  {
    t.(timeoutHandle := handle)
  }

  /** `animationFrameTick`: schedule the next frame callback. */
  function AnimationFrameTick(t: Ticker, handle: nat): (r: Ticker)
    requires handle > 0
    ensures r.animationFrameHandle == handle && Active(r)
    ensures r.timeoutHandle == t.timeoutHandle && r.prevTimeoutTime == t.prevTimeoutTime
  {
    t.(animationFrameHandle := handle)
  }

  /** `tick`: schedule both callbacks; the ticker is active afterwards. */
  function StartTicking(t: Ticker, timeoutHandle: nat, frameHandle: nat): (r: Ticker)
    requires timeoutHandle > 0 && frameHandle > 0
    ensures Active(r)
    ensures r.timeoutHandle == timeoutHandle && r.animationFrameHandle == frameHandle
    ensures r.prevTimeoutTime == t.prevTimeoutTime
  {
    AnimationFrameTick(TimeoutTick(t, timeoutHandle), frameHandle)
  }

  /** `cancel`: both handles are cleared, so the ticker is inactive. The time
      of the previous timer tick is kept. */
  function Cancel(t: Ticker): (r: Ticker)
    ensures !Active(r)
    ensures r.timeoutHandle == 0 && r.animationFrameHandle == 0
    ensures r.prevTimeoutTime == t.prevTimeoutTime
  {
    t.(timeoutHandle := 0, animationFrameHandle := 0)
  }

  /** The ticker's two handles are set and cleared together: the timer runs
      exactly when the frame loop runs. */
  predicate HandlesAgree(t: Ticker) {
    (t.timeoutHandle == 0) == (t.animationFrameHandle == 0)
  }

  /** The `active` setter: assigning `true` to an inactive ticker starts it;
      every other assignment cancels, including `true` to an active one. */
  function SetActive(t: Ticker, value: bool, timeoutHandle: nat, frameHandle: nat): (r: Ticker)
    requires timeoutHandle > 0 && frameHandle > 0
    ensures Active(r) <==> value && !Active(t)
    ensures Active(r) ==> r.timeoutHandle == timeoutHandle && r.animationFrameHandle == frameHandle
    ensures !Active(r) ==> r.timeoutHandle == 0 && r.animationFrameHandle == 0
    ensures HandlesAgree(r)
    ensures r.prevTimeoutTime == t.prevTimeoutTime
  {
    if value && !Active(t) then StartTicking(t, timeoutHandle, frameHandle) else Cancel(t)
  }

  /** The `active` setter as its name promises: assigning `true` starts an
      inactive ticker and leaves a running one running, assigning `false`
      cancels. Afterwards the ticker runs exactly when `true` was assigned. */
  function SetActiveRepaired(t: Ticker, value: bool, timeoutHandle: nat, frameHandle: nat): (r: Ticker)
    requires timeoutHandle > 0 && frameHandle > 0
    ensures Active(r) == value
    ensures value && Active(t) ==> r == t
    ensures value && !Active(t) ==> r.timeoutHandle == timeoutHandle && r.animationFrameHandle == frameHandle
    ensures !value ==> r.timeoutHandle == 0 && r.animationFrameHandle == 0
    ensures HandlesAgree(t) ==> HandlesAgree(r)
    ensures r.prevTimeoutTime == t.prevTimeoutTime
  {
    if !value then Cancel(t)
    else if Active(t) then t
    else StartTicking(t, timeoutHandle, frameHandle)
  }

  /** The two setters differ only when `true` is assigned to a running
      ticker. */
  lemma SettersDifferOnlyOnRunningTrue(t: Ticker, value: bool, timeoutHandle: nat, frameHandle: nat)
    requires timeoutHandle > 0 && frameHandle > 0
    ensures SetActive(t, value, timeoutHandle, frameHandle) != SetActiveRepaired(t, value, timeoutHandle, frameHandle)
      <==> value && Active(t)
  {
  }

  /** Which `active` setter the page runs: the one the source has, or the
      repaired one. */
  datatype Setter = AsWritten | Repaired

  function AssignActive(setter: Setter, t: Ticker, value: bool, timeoutHandle: nat, frameHandle: nat): (r: Ticker)
    requires timeoutHandle > 0 && frameHandle > 0
    ensures setter == AsWritten ==> (Active(r) <==> value && !Active(t))
    ensures setter == Repaired ==> Active(r) == value
    ensures Active(r) && !Active(t) ==> r.timeoutHandle == timeoutHandle && r.animationFrameHandle == frameHandle
    ensures HandlesAgree(t) ==> HandlesAgree(r)
    ensures r.prevTimeoutTime == t.prevTimeoutTime
  {
    match setter
    case AsWritten => SetActive(t, value, timeoutHandle, frameHandle)
    case Repaired => SetActiveRepaired(t, value, timeoutHandle, frameHandle)
  }

  // ---------------------------------------------------------------------------
  // Engine

  datatype Engine = Engine(scene: Physics.Scene, ticker: Ticker)

  /** `createEngine`: a fresh scene moved to a random position within 15 of
      the origin with a random velocity within 240 on each axis, mass 1,
      spring rate 30 and drag 4, and an idle ticker. `r0` to `r3` are the
      four `Math.random()` results, each in [0, 1). */
  function CreateEngine(r0: real, r1: real, r2: real, r3: real): (e: Engine)
    requires 0.0 <= r0 < 1.0 && 0.0 <= r1 < 1.0 && 0.0 <= r2 < 1.0 && 0.0 <= r3 < 1.0
    ensures Policy(e.scene)
    ensures Physics.Mass(e.scene) == 1.0 && Physics.SpringRate(e.scene) == 30.0 && Physics.Drag(e.scene) == 4.0
    ensures -15.0 <= Physics.PositionX(e.scene) < 15.0 && -15.0 <= Physics.PositionY(e.scene) < 15.0
    ensures -240.0 <= Physics.VelocityX(e.scene) < 240.0 && -240.0 <= Physics.VelocityY(e.scene) < 240.0
    ensures e.scene.environment.gravityAcceleration == Physics.NewScene().environment.gravityAcceleration
    ensures e.scene.environment.springEquilibriumPosition == Zero
    ensures !Active(e.ticker) && e.ticker.prevTimeoutTime == NegativeInfinity
  {
    var placed := Physics.SetPosition(Physics.NewScene(), InitialPositionRadius * (r0 * 2.0 - 1.0), InitialPositionRadius * (r1 * 2.0 - 1.0));
    var weighted := Physics.SetMass(placed, InitialMass);
    var sprung := Physics.SetSpringRate(weighted, InitialSpringRate);
    var damped := Physics.SetDrag(sprung, InitialDrag);
    var launched := Physics.SetVelocity(damped, InitialVelocityRadius * (r2 * 2.0 - 1.0), InitialVelocityRadius * (r3 * 2.0 - 1.0));
    Engine(launched, NewTicker)
  }

  /** `timeoutTickAction(now)`: step the scene by the clamped elapsed time,
      remember `now`, and schedule the next timer callback. The animation
      frame side, and so `active`, is untouched. */
  function TimeoutTickAction(e: Engine, now: real, handle: nat): (r: Engine)
    requires e.scene.body.mass != 0.0
    requires handle > 0
    ensures r.scene == Physics.SceneTick(e.scene, Timestep(e.ticker.prevTimeoutTime, now))
    ensures r.ticker.prevTimeoutTime == At(now)
    ensures r.ticker.timeoutHandle == handle
    ensures r.ticker.animationFrameHandle == e.ticker.animationFrameHandle
    ensures Active(r.ticker) == Active(e.ticker)
  {
    var dt := Timestep(e.ticker.prevTimeoutTime, now);
    var scene := Physics.SceneTick(e.scene, dt);
    Engine(scene, TimeoutTick(e.ticker.(prevTimeoutTime := At(now)), handle))
  }

  /** A timer tick keeps the scene within the policy: the step changes no
      parameter. */
  lemma TimeoutTickActionPreservesPolicy(e: Engine, now: real, handle: nat)
    requires Policy(e.scene)
    requires handle > 0
    ensures Policy(TimeoutTickAction(e, now, handle).scene)
  {
  }

  /** `resetPosition`: the body back at the origin, at rest. */
  function ResetPosition(s: Physics.Scene): (r: Physics.Scene)
    ensures r.body.position == Zero && r.body.velocity == Zero
    ensures r.environment == s.environment
    ensures Physics.SameBodyParameters(r.body, s.body)
  {
    Physics.SetVelocity(Physics.SetPosition(s, 0.0, 0.0), 0.0, 0.0)
  }

  /** A reset changes no force parameter, so it keeps the policy, and doing
      it twice is doing it once. */
  lemma ResetPositionKeepsParameters(s: Physics.Scene)
    ensures Policy(ResetPosition(s)) <==> Policy(s)
    ensures ResetPosition(ResetPosition(s)) == ResetPosition(s)
  {
  }

  /** `toggle`: the page's `active` flag is negated and assigned to the
      ticker. Returns the new engine and the new flag. */
  function Toggle(setter: Setter, e: Engine, uiActive: bool, timeoutHandle: nat, frameHandle: nat): (r: (Engine, bool))
    requires timeoutHandle > 0 && frameHandle > 0
    ensures r.1 == !uiActive
    ensures r.0.scene == e.scene
    ensures setter == AsWritten ==> (Active(r.0.ticker) <==> !uiActive && !Active(e.ticker))
    ensures setter == Repaired ==> Active(r.0.ticker) == !uiActive
    ensures HandlesAgree(e.ticker) ==> HandlesAgree(r.0.ticker)
    ensures r.0.ticker.prevTimeoutTime == e.ticker.prevTimeoutTime
  {
    (e.(ticker := AssignActive(setter, e.ticker, !uiActive, timeoutHandle, frameHandle)), !uiActive)
  }

  /** While the page's flag agrees with the ticker, toggling keeps them in
      agreement, with either setter. */
  lemma ToggleKeepsTickerInSync(setter: Setter, e: Engine, uiActive: bool, timeoutHandle: nat, frameHandle: nat)
    requires timeoutHandle > 0 && frameHandle > 0
    requires Active(e.ticker) == uiActive
    ensures Active(Toggle(setter, e, uiActive, timeoutHandle, frameHandle).0.ticker)
      == Toggle(setter, e, uiActive, timeoutHandle, frameHandle).1
  {
  }

  /** A drag gesture cancels the ticker on mouse-down and assigns the page's
      flag on mouse-up; whatever the ticker was doing before, it ends up
      agreeing with the flag. */
  lemma DragGestureRestoresFlag(t: Ticker, uiActive: bool, timeoutHandle: nat, frameHandle: nat)
    requires timeoutHandle > 0 && frameHandle > 0
    ensures Active(SetActive(Cancel(t), uiActive, timeoutHandle, frameHandle)) == uiActive
  {
  }

  /** Assigning `true` to a ticker that is already running stops it. */
  lemma SetActiveTrueWhileActiveCancels(t: Ticker, timeoutHandle: nat, frameHandle: nat)
    requires timeoutHandle > 0 && frameHandle > 0
    requires Active(t)
    ensures !Active(SetActive(t, true, timeoutHandle, frameHandle))
  {
  }

  /** At start-up the page calls `tick` on the fresh engine's ticker, so the
      ticker runs, in agreement with the page's initial `active: true`, and the
      first timer step is MAX_TIMESTEP long. */
  lemma StartUpAgreesWithFlag(r0: real, r1: real, r2: real, r3: real, timeoutHandle: nat, frameHandle: nat, now: real)
    requires 0.0 <= r0 < 1.0 && 0.0 <= r1 < 1.0 && 0.0 <= r2 < 1.0 && 0.0 <= r3 < 1.0
    requires timeoutHandle > 0 && frameHandle > 0
    ensures Active(StartTicking(CreateEngine(r0, r1, r2, r3).ticker, timeoutHandle, frameHandle))
    ensures Timestep(StartTicking(CreateEngine(r0, r1, r2, r3).ticker, timeoutHandle, frameHandle).prevTimeoutTime, now) == MaxTimestep
  {
  }

  // ---------------------------------------------------------------------------
  // The page as a whole

  /** The state the page keeps: the engine, the Vue `active` flag, and
      whether the disc is being dragged (between mouse-down and mouse-up). */
  datatype Page = Page(engine: Engine, uiActive: bool, dragging: bool)

  /** What can happen to the page. The handles are the fresh values the
      browser's scheduling calls return; `now` is `Date.now()`; the drag
      events carry the position under the mouse, and the velocity the page
      estimates from the mouse's motion on every animation frame of a drag
      and once more on release. The toggle button
      can be pressed at any time, also during a drag (from the keyboard,
      since mouse-down on the drawing keeps the focus on the button). */
  datatype Event =
    | Input(field: Field, value: real)
    | TimerFires(now: real, timeoutHandle: nat)
    | FrameFires(frameHandle: nat)
    | ResetButton
    | ToggleButton(timeoutHandle: nat, frameHandle: nat)
    | DragStart(x: real, y: real)
    | DragMove(x: real, y: real)
    | DragFrame(vx: real, vy: real)
    | DragEnd(vx: real, vy: real, timeoutHandle: nat, frameHandle: nat)

  /** When an event can occur: a cancelled callback never fires, the
      browser's handles are positive, and a drag moves and ends only once it
      has started. */
  predicate CanOccur(p: Page, ev: Event) {
    match ev
    case Input(_, _) => true
    case TimerFires(_, h) => p.engine.ticker.timeoutHandle != 0 && h > 0
    case FrameFires(h) => p.engine.ticker.animationFrameHandle != 0 && h > 0
    case ResetButton => true
    case ToggleButton(th, fh) => th > 0 && fh > 0
    case DragStart(_, _) => !p.dragging
    case DragMove(_, _) => p.dragging
    case DragFrame(_, _) => p.dragging
    case DragEnd(_, _, th, fh) => p.dragging && th > 0 && fh > 0
  }

  /** Whether the disc is held after `ev`, when it was held (`dragging`)
      before; an event that cannot occur leaves it as it was. */
  function NextDragging(dragging: bool, ev: Event): bool {
    match ev
    case DragStart(_, _) => true
    case DragEnd(_, _, th, fh) => if th > 0 && fh > 0 then false else dragging
    case _ => dragging
  }

  /** What every session keeps: the scene within the parameter policy, and
      the timer and frame loop running together. */
  predicate Safe(p: Page) {
    Policy(p.engine.scene) && HandlesAgree(p.engine.ticker)
  }

  /** The button tells the truth outside a drag, and the ticker is stopped
      during one. */
  predicate InSync(p: Page) {
    if p.dragging then !Active(p.engine.ticker) else Active(p.engine.ticker) == p.uiActive
  }

  /** Outside a drag the ticker runs exactly when the button says it does. */
  predicate ButtonTruthful(p: Page) {
    !p.dragging ==> Active(p.engine.ticker) == p.uiActive
  }

  /** The page right after loading: the fresh engine with its ticker started
      and the button showing "Stop". */
  function StartPage(r0: real, r1: real, r2: real, r3: real, timeoutHandle: nat, frameHandle: nat): (p: Page)
    requires 0.0 <= r0 < 1.0 && 0.0 <= r1 < 1.0 && 0.0 <= r2 < 1.0 && 0.0 <= r3 < 1.0
    requires timeoutHandle > 0 && frameHandle > 0
    ensures Safe(p) && InSync(p) && ButtonTruthful(p)
    ensures p.uiActive && !p.dragging && Active(p.engine.ticker)
  {
    var e := CreateEngine(r0, r1, r2, r3);
    Page(e.(ticker := StartTicking(e.ticker, timeoutHandle, frameHandle)), true, false)
  }

  /** One event. A timer callback steps the scene; a frame callback only
      redraws and reschedules itself; mouse-down on the disc cancels the
      ticker and moves the body under the mouse; mouse-up sets the
      estimated velocity and hands the ticker back to the button's flag.

      Every event keeps the page safe. Every event except a toggle during a
      drag keeps it in sync; with the repaired setter every event keeps the
      button truthful outside a drag. */
  function Step(setter: Setter, p: Page, ev: Event): (r: Page)
    requires Safe(p) && CanOccur(p, ev)
    ensures Safe(r)
    ensures r.dragging == NextDragging(p.dragging, ev)
    ensures InSync(p) && !(ev.ToggleButton? && p.dragging) ==> InSync(r)
    ensures setter == Repaired && ButtonTruthful(p) ==> ButtonTruthful(r)
    ensures ev.Input? ==> r.engine.scene == FieldInput(Validate, ev.field, ev.value, p.engine.scene).scene
    ensures ev.TimerFires? ==> r.engine.scene == Physics.SceneTick(p.engine.scene, Timestep(p.engine.ticker.prevTimeoutTime, ev.now))
    ensures !ev.TimerFires? ==> r.engine.ticker.prevTimeoutTime == p.engine.ticker.prevTimeoutTime
    ensures ev.DragStart? || ev.DragMove? ==> Physics.PositionX(r.engine.scene) == ev.x && Physics.PositionY(r.engine.scene) == ev.y
    ensures ev.DragFrame? || ev.DragEnd? ==> Physics.VelocityX(r.engine.scene) == ev.vx && Physics.VelocityY(r.engine.scene) == ev.vy
    ensures ev.ResetButton? ==> r.engine.scene == ResetPosition(p.engine.scene)
    ensures ev.FrameFires? || ev.ToggleButton? ==> r.engine.scene == p.engine.scene
    ensures ev.DragStart? ==> !Active(r.engine.ticker)
    ensures ev.ToggleButton? ==> r.uiActive == !p.uiActive
    ensures !ev.ToggleButton? ==> r.uiActive == p.uiActive
  {
    var e := p.engine;
    match ev
    case Input(f, value) =>
      FieldInputPreservesPolicy(f, value, e.scene);
      p.(engine := e.(scene := FieldInput(Validate, f, value, e.scene).scene))
    case TimerFires(now, h) =>
      TimeoutTickActionPreservesPolicy(e, now, h);
      p.(engine := TimeoutTickAction(e, now, h))
    case FrameFires(h) =>
      p.(engine := e.(ticker := AnimationFrameTick(e.ticker, h)))
    case ResetButton =>
      ResetPositionKeepsParameters(e.scene);
      p.(engine := e.(scene := ResetPosition(e.scene)))
    case ToggleButton(th, fh) =>
      var toggled := Toggle(setter, e, p.uiActive, th, fh);
      Page(toggled.0, toggled.1, p.dragging)
    case DragStart(x, y) =>
      Page(Engine(Physics.SetPosition(e.scene, x, y), Cancel(e.ticker)), p.uiActive, true)
    case DragMove(x, y) =>
      p.(engine := e.(scene := Physics.SetPosition(e.scene, x, y)))
    case DragFrame(vx, vy) =>
      p.(engine := e.(scene := Physics.SetVelocity(e.scene, vx, vy)))
    case DragEnd(vx, vy, th, fh) =>
      Page(Engine(Physics.SetVelocity(e.scene, vx, vy), AssignActive(setter, e.ticker, p.uiActive, th, fh)), p.uiActive, false)
  }

  /** No toggle is pressed while the disc is held, `dragging` telling whether
      it is held at the start. */
  predicate NoToggleWhileDragging(dragging: bool, events: seq<Event>)
    decreases |events|
  {
    |events| == 0
    || (!(events[0].ToggleButton? && dragging)
        && NoToggleWhileDragging(NextDragging(dragging, events[0]), events[1..]))
  }

  /** A session: the events in order, those that cannot occur in the state
      reached being skipped. Every session keeps the page safe. With the
      source's setter the button stays truthful outside a drag in every
      session without a toggle during a drag; with the repaired setter, in
      every session. */
  function Run(setter: Setter, p: Page, events: seq<Event>): (r: Page)
    requires Safe(p)
    ensures Safe(r)
    ensures InSync(p) && NoToggleWhileDragging(p.dragging, events) ==> InSync(r)
    ensures setter == Repaired && ButtonTruthful(p) ==> ButtonTruthful(r)
    ensures (forall i :: 0 <= i < |events| ==> !events[i].ToggleButton?) ==> r.uiActive == p.uiActive
    decreases |events|
  {
    if |events| == 0 then p
    else if CanOccur(p, events[0]) then Run(setter, Step(setter, p, events[0]), events[1..])
    else Run(setter, p, events[1..])
  }

  /** The source's setter loses the button's truth: on a paused page, press
      the mouse on the disc, toggle from the keyboard, release the mouse. The
      toggle starts the ticker (the flag is now `true`); mouse-up assigns
      `true` to the running ticker, which cancels it. The button says "Stop"
      while nothing runs. */
  lemma ToggleDuringDragDesyncs(p: Page, x: real, y: real, th: nat, fh: nat, vx: real, vy: real, th2: nat, fh2: nat)
    requires Safe(p) && !p.dragging && !p.uiActive && !Active(p.engine.ticker)
    requires th > 0 && fh > 0 && th2 > 0 && fh2 > 0
    ensures Run(AsWritten, p, [DragStart(x, y), ToggleButton(th, fh), DragEnd(vx, vy, th2, fh2)]).uiActive
    ensures !Active(Run(AsWritten, p, [DragStart(x, y), ToggleButton(th, fh), DragEnd(vx, vy, th2, fh2)]).engine.ticker)
    ensures !ButtonTruthful(Run(AsWritten, p, [DragStart(x, y), ToggleButton(th, fh), DragEnd(vx, vy, th2, fh2)]))
  {
    var events := [DragStart(x, y), ToggleButton(th, fh), DragEnd(vx, vy, th2, fh2)];
    assert CanOccur(p, events[0]);
    var p1 := Step(AsWritten, p, events[0]);
    assert CanOccur(p1, events[1]);
    var p2 := Step(AsWritten, p1, events[1]);
    assert p2.dragging && CanOccur(p2, events[2]);
    var p3 := Step(AsWritten, p2, events[2]);
    assert events[1..] == [events[1], events[2]];
    assert events[1..][1..] == [events[2]];
    assert events[1..][1..][1..] == [];
    calc {
      Run(AsWritten, p, events);
      Run(AsWritten, p1, events[1..]);
      Run(AsWritten, p2, events[1..][1..]);
      Run(AsWritten, p3, events[1..][1..][1..]);
      p3;
    }
  }

  /** Mouse-down cancels the ticker, but a toggle during the drag starts it
      again, with either setter: on a paused page the ticker then runs while
      the disc is held, and its timer steps the scene under the mouse. */
  lemma ToggleDuringDragStartsTicker(setter: Setter, p: Page, x: real, y: real, th: nat, fh: nat, now: real, h: nat)
    requires Safe(p) && !p.dragging && !p.uiActive && !Active(p.engine.ticker)
    requires th > 0 && fh > 0 && h > 0
    ensures Run(setter, p, [DragStart(x, y), ToggleButton(th, fh)]).dragging
    ensures Active(Run(setter, p, [DragStart(x, y), ToggleButton(th, fh)]).engine.ticker)
    ensures CanOccur(Run(setter, p, [DragStart(x, y), ToggleButton(th, fh)]), TimerFires(now, h))
  {
    var events := [DragStart(x, y), ToggleButton(th, fh)];
    assert CanOccur(p, events[0]);
    var p1 := Step(setter, p, events[0]);
    assert CanOccur(p1, events[1]);
    var p2 := Step(setter, p1, events[1]);
    assert events[1..] == [events[1]];
    assert events[1..][1..] == [];
    calc {
      Run(setter, p, events);
      Run(setter, p1, events[1..]);
      Run(setter, p2, events[1..][1..]);
      p2;
    }
  }

  /** With the repaired setter the same gesture leaves the ticker running,
      as the button says. */
  lemma ToggleDuringDragRepaired(p: Page, x: real, y: real, th: nat, fh: nat, vx: real, vy: real, th2: nat, fh2: nat)
    requires Safe(p) && !p.dragging && !p.uiActive && !Active(p.engine.ticker)
    requires th > 0 && fh > 0 && th2 > 0 && fh2 > 0
    ensures Run(Repaired, p, [DragStart(x, y), ToggleButton(th, fh), DragEnd(vx, vy, th2, fh2)]).uiActive
    ensures Active(Run(Repaired, p, [DragStart(x, y), ToggleButton(th, fh), DragEnd(vx, vy, th2, fh2)]).engine.ticker)
  {
    var events := [DragStart(x, y), ToggleButton(th, fh), DragEnd(vx, vy, th2, fh2)];
    assert CanOccur(p, events[0]);
    var p1 := Step(Repaired, p, events[0]);
    assert CanOccur(p1, events[1]);
    var p2 := Step(Repaired, p1, events[1]);
    assert p2.dragging && CanOccur(p2, events[2]);
    var p3 := Step(Repaired, p2, events[2]);
    assert events[1..] == [events[1], events[2]];
    assert events[1..][1..] == [events[2]];
    assert events[1..][1..][1..] == [];
    calc {
      Run(Repaired, p, events);
      Run(Repaired, p1, events[1..]);
      Run(Repaired, p2, events[1..][1..]);
      Run(Repaired, p3, events[1..][1..][1..]);
      p3;
    }
  }
}

=== FILE: motion.dfy ===
/** Properties of the step `Scene::tick` (rustwasm/src/lib.rs:127-136 and
    156-159) stated over the pure model in module Physics: what one step does
    to the state, and what repeated steps do in the force-free case. */
module Motion {
  import opened Vector
  import opened Physics

  /** A step of length zero moves nothing: position and velocity stay. */
  lemma TickZeroKeepsState(s: Scene)
    requires s.body.mass != 0.0
    ensures SceneTick(s, 0.0).body.position == s.body.position
    ensures SceneTick(s, 0.0).body.velocity == s.body.velocity
  {
    var r := SceneTick(s, 0.0);
    assert Scaled(r.body.acceleration, 0.0) == Zero;
    assert Scaled(r.body.velocity, 0.0) == Zero;
  }

  /** The acceleration of a step, per unit of force: the spring and drag terms
      are divided by the mass, gravity enters as it is. Gravity is scaled by
      the mass into a force and divided by it again, so it does not depend on
      the mass at all. */
  lemma AccelerationDecomposition(s: Scene, timestep: real)
    requires s.body.mass != 0.0
    ensures SceneTick(s, timestep).body.acceleration ==
      Added(Added(Scaled(Subtracted(s.environment.springEquilibriumPosition, s.body.position),
                         s.environment.springRate / s.body.mass),
                  s.environment.gravityAcceleration),
            Scaled(s.body.velocity, -s.environment.drag / s.body.mass))
  {
    var m := s.body.mass;
    var env := s.environment;
    var d := Subtracted(env.springEquilibriumPosition, s.body.position);
    var g := env.gravityAcceleration;
    var v := s.body.velocity;
    var a := SceneTick(s, timestep).body.acceleration;
    assert Scaled(a, m) == ForcesOnBody(env, s.body);
    PerAxisAcceleration(a.x, d.x, g.x, v.x, env.springRate, env.drag, m);
    PerAxisAcceleration(a.y, d.y, g.y, v.y, env.springRate, env.drag, m);
  }

  /** One axis of `AccelerationDecomposition`: from `a m = k d + g m - c v`. */
  lemma PerAxisAcceleration(a: real, d: real, g: real, v: real, k: real, c: real, m: real)
    requires m != 0.0
    requires a * m == d * k + g * m + v * -c
    ensures a == d * (k / m) + g + v * (-c / m)
  {
    var inv := 1.0 / m;
    assert m * inv == 1.0;
    calc {
      a;
      a * (m * inv);
      (a * m) * inv;
      (d * k + g * m + v * -c) * inv;
      (d * k) * inv + (g * m) * inv + (v * -c) * inv;
      { assert (d * k) * inv == d * (k / m);
        assert (g * m) * inv == g * (m * inv);
        assert (v * -c) * inv == v * (-c / m); }
      d * (k / m) + g + v * (-c / m);
    }
  }

  /** Without spring and drag the acceleration is exactly the gravity
      setting, whatever the (non-zero) mass. */
  lemma GravityAccelerationIndependentOfMass(s: Scene, timestep: real)
    requires s.body.mass != 0.0
    requires s.environment.springRate == 0.0 && s.environment.drag == 0.0
    ensures SceneTick(s, timestep).body.acceleration == s.environment.gravityAcceleration
  {
    AccelerationDecomposition(s, timestep);
  }

  /** No spring, no drag, no gravity. */
  predicate ForceFree(env: BodyForces) {
    env.springRate == 0.0 && env.drag == 0.0 && env.gravityAcceleration == Zero
  }

  lemma ForceFreeMeansNoForce(s: Scene)
    requires ForceFree(s.environment)
    ensures ForcesOnBody(s.environment, s.body) == Zero
  {
  }

  lemma NoForceNoAcceleration(s: Scene, timestep: real)
    requires s.body.mass != 0.0
    requires ForcesOnBody(s.environment, s.body) == Zero
    ensures SceneTick(s, timestep).body.acceleration == Zero
  {
  }

  /** In a force-free environment a step keeps the velocity and moves the
      body by `v dt`. */
  lemma ForceFreeTick(s: Scene, timestep: real)
    requires s.body.mass != 0.0
    requires ForceFree(s.environment)
    ensures SceneTick(s, timestep).body.velocity == s.body.velocity
    ensures SceneTick(s, timestep).body.position == Added(s.body.position, Scaled(s.body.velocity, timestep))
  {
    ForceFreeMeansNoForce(s);
    NoForceNoAcceleration(s, timestep);
    ScaledZero(timestep);
    var r := SceneTick(s, timestep);
    assert Subtracted(r.body.velocity, s.body.velocity) == Zero;
  }

  /** `n` steps of the same length, as the host's timer performs them. */
  function TickN(s: Scene, timestep: real, n: nat): (r: Scene)
    requires s.body.mass != 0.0
    ensures r.environment == s.environment
    ensures r.body.mass == s.body.mass
    decreases n
  {
    if n == 0 then s else TickN(SceneTick(s, timestep), timestep, n - 1)
  }

  /** Force-free motion is uniform: after `n` steps of length `dt` the
      velocity is unchanged and the body has moved by `v n dt`. */
  lemma {:induction false} FreeMotion(s: Scene, timestep: real, n: nat)
    requires s.body.mass != 0.0
    requires ForceFree(s.environment)
    ensures TickN(s, timestep, n).body.velocity == s.body.velocity
    ensures TickN(s, timestep, n).body.position ==
      Added(s.body.position, Scaled(s.body.velocity, n as real * timestep))
    decreases n
  {
    var p := s.body.position;
    var v := s.body.velocity;
    if n == 0 {
      ScaledZero(0.0);
      assert Scaled(v, 0.0 * timestep) == Zero;
    } else {
      var s1 := SceneTick(s, timestep);
      ForceFreeTick(s, timestep);
      FreeMotion(s1, timestep, n - 1);
      MovesAdd(p, v, timestep, (n - 1) as real * timestep);
      assert timestep + (n - 1) as real * timestep == n as real * timestep;
    }
  }

  /** Moving by `v a` and then by `v b` is moving by `v (a + b)`. */
  lemma MovesAdd(p: Vec2, v: Vec2, a: real, b: real)
    ensures Added(Added(p, Scaled(v, a)), Scaled(v, b)) == Added(p, Scaled(v, a + b))
  {
    assert v.x * a + v.x * b == v.x * (a + b);
    assert v.y * a + v.y * b == v.y * (a + b);
  }

  /** Force-free motion does not depend on how the elapsed time is cut into
      steps: `n` equal steps covering `total` seconds always end at
      `p + v total`. */
  lemma StepSizeInvariance(s: Scene, total: real, n: nat)
    requires s.body.mass != 0.0
    requires ForceFree(s.environment)
    requires n > 0
    ensures TickN(s, total / n as real, n).body.position ==
      Added(s.body.position, Scaled(s.body.velocity, total))
  {
    var dt := total / n as real;
    FreeMotion(s, dt, n);
    assert n as real * dt == total;
    var p := s.body.position;
    var v := s.body.velocity;
    assert Scaled(v, n as real * dt) == Scaled(v, total);
  }

  /** Under drag alone (no spring, no gravity) a step scales the velocity by
      the factor `1 - c dt / m`. */
  lemma DragOnlyVelocity(s: Scene, timestep: real)
    requires s.body.mass != 0.0
    requires s.environment.springRate == 0.0 && s.environment.gravityAcceleration == Zero
    ensures SceneTick(s, timestep).body.velocity ==
      Scaled(s.body.velocity, 1.0 - s.environment.drag * timestep / s.body.mass)
  {
    var r := SceneTick(s, timestep);
    DragOnlyAcceleration(s, timestep);
    Decay(s.body.velocity, r.body.velocity, r.body.acceleration, s.environment.drag, s.body.mass, timestep);
  }

  /** Both axes of a drag-only step at once. */
  lemma Decay(v: Vec2, v': Vec2, a: Vec2, c: real, m: real, timestep: real)
    requires m != 0.0
    requires a == Scaled(v, -c / m)
    requires Subtracted(v', v) == Scaled(a, timestep)
    ensures v' == Scaled(v, 1.0 - c * timestep / m)
  {
    DecayAxis(v.x, v'.x, a.x, c, m, timestep);
    DecayAxis(v.y, v'.y, a.y, c, m, timestep);
  }

  /** When in addition `c dt <= 2 m` (with a positive mass, a non-negative
      drag and a non-negative step) that factor lies in [-1, 1], so the speed
      never grows. */
  lemma DragOnlySpeedDoesNotGrow(s: Scene, timestep: real)
    requires s.body.mass > 0.0
    requires s.environment.springRate == 0.0 && s.environment.gravityAcceleration == Zero
    requires s.environment.drag >= 0.0 && timestep >= 0.0
    requires s.environment.drag * timestep <= 2.0 * s.body.mass
    ensures SquaredMag(SceneTick(s, timestep).body.velocity) <= SquaredMag(s.body.velocity)
  {
    var f := 1.0 - s.environment.drag * timestep / s.body.mass;
    calc {
      SquaredMag(SceneTick(s, timestep).body.velocity);
      { DragOnlyVelocity(s, timestep); }
      SquaredMag(Scaled(s.body.velocity, f));
    <= { FactorWithinUnit(s.environment.drag, s.body.mass, timestep);
         ShrinkingScaleShrinks(s.body.velocity, f); }
      SquaredMag(s.body.velocity);
    }
  }

  /** When `c dt <= m` the factor is also non-negative: the step never turns
      the velocity around. */
  lemma DragOnlyDirectionKept(s: Scene, timestep: real)
    requires s.body.mass > 0.0
    requires s.environment.springRate == 0.0 && s.environment.gravityAcceleration == Zero
    requires s.environment.drag >= 0.0 && timestep >= 0.0
    requires s.environment.drag * timestep <= s.body.mass
    ensures Dot(SceneTick(s, timestep).body.velocity, s.body.velocity) >= 0.0
  {
    var v := s.body.velocity;
    var f := 1.0 - s.environment.drag * timestep / s.body.mass;
    FactorNonNegative(s.environment.drag, s.body.mass, timestep);
    SquareNonNegative(v.x);
    SquareNonNegative(v.y);
    calc {
      Dot(SceneTick(s, timestep).body.velocity, v);
      { DragOnlyVelocity(s, timestep); }
      Dot(Scaled(v, f), v);
      { assert (v.x * f) * v.x == f * (v.x * v.x);
        assert (v.y * f) * v.y == f * (v.y * v.y); }
      f * (v.x * v.x) + f * (v.y * v.y);
      f * SquaredMag(v);
    >= 0.0;
    }
  }

  /** The bound matters, and the page's own ranges break it: with mass 1,
      drag 80 (the largest the drag field accepts) and the longest timer step
      of 1/30 s, the factor is `1 - 80/30 = -5/3`, so every moving body
      speeds up in a step with drag as its only force. */
  lemma DragCanAmplifyWithinPageRanges(s: Scene)
    requires s.body.mass == 1.0 && s.environment.drag == 80.0
    requires s.environment.springRate == 0.0 && s.environment.gravityAcceleration == Zero
    requires s.body.velocity != Zero
    ensures SquaredMag(SceneTick(s, 1.0 / 30.0).body.velocity) > SquaredMag(s.body.velocity)
  {
    var v := s.body.velocity;
    var f := 1.0 - 80.0 * (1.0 / 30.0) / 1.0;
    assert f == -5.0 / 3.0;
    SquareNonNegative(v.x);
    SquareNonNegative(v.y);
    if SquaredMag(v) == 0.0 {
      ZeroSquaredMagIsZero(v);
      assert false;
    }
    calc {
      SquaredMag(SceneTick(s, 1.0 / 30.0).body.velocity);
      { DragOnlyVelocity(s, 1.0 / 30.0); }
      SquaredMag(Scaled(v, f));
      { ScaledSquaredMag(v, f); }
      SquaredMag(v) * (f * f);
      SquaredMag(v) * (25.0 / 9.0);
    > SquaredMag(v);
    }
  }

  lemma DragOnlyAcceleration(s: Scene, timestep: real)
    requires s.body.mass != 0.0
    requires s.environment.springRate == 0.0 && s.environment.gravityAcceleration == Zero
    ensures SceneTick(s, timestep).body.acceleration == Scaled(s.body.velocity, -s.environment.drag / s.body.mass)
  {
    var m := s.body.mass;
    var c := s.environment.drag;
    var d := Subtracted(s.environment.springEquilibriumPosition, s.body.position);
    var v := s.body.velocity;
    var a := SceneTick(s, timestep).body.acceleration;
    assert Scaled(a, m) == ForcesOnBody(s.environment, s.body);
    DragOnlyAxis(a.x, d.x, v.x, c, m);
    DragOnlyAxis(a.y, d.y, v.y, c, m);
  }

  lemma DragOnlyAxis(a: real, d: real, v: real, c: real, m: real)
    requires m != 0.0
    requires a * m == d * 0.0 + 0.0 * m + v * -c
    ensures a == v * (-c / m)
  {
    PerAxisAcceleration(a, d, 0.0, v, 0.0, c, m);
    assert d * (0.0 / m) == 0.0;
  }

  /** One axis of a drag-only step: `v' = v + (-c v / m) dt = v (1 - c dt / m)`. */
  lemma DecayAxis(v: real, v': real, a: real, c: real, m: real, timestep: real)
    requires m != 0.0
    requires a == v * (-c / m)
    requires v' - v == a * timestep
    ensures v' == v * (1.0 - c * timestep / m)
  {
    calc {
      v';
      v + a * timestep;
      v + (v * (-c / m)) * timestep;
      { assert (v * (-c / m)) * timestep == v * -(c * timestep / m); }
      v + v * -(c * timestep / m);
      v * (1.0 - c * timestep / m);
    }
  }

  lemma FactorWithinUnit(c: real, m: real, timestep: real)
    requires m > 0.0 && c >= 0.0 && timestep >= 0.0 && c * timestep <= 2.0 * m
    ensures -1.0 <= 1.0 - c * timestep / m <= 1.0
  {
    var q := c * timestep / m;
    assert c * timestep >= 0.0;
    assert q * m == c * timestep;
    assert q >= 0.0;
    assert q * m <= 2.0 * m;
  }

  lemma FactorNonNegative(c: real, m: real, timestep: real)
    requires m > 0.0 && c * timestep <= m
    ensures 1.0 - c * timestep / m >= 0.0
  {
    var q := c * timestep / m;
    assert q * m == c * timestep;
    assert q * m <= 1.0 * m;
  }

  /** Scaling by a factor in [-1, 1] does not lengthen a vector. */
  lemma ShrinkingScaleShrinks(v: Vec2, f: real)
    requires -1.0 <= f <= 1.0
    ensures SquaredMag(Scaled(v, f)) <= SquaredMag(v)
  {
    ScaledSquaredMag(v, f);
    SquareNonNegative(v.x);
    SquareNonNegative(v.y);
    assert f * f <= 1.0 by {
      if f >= 0.0 {
        assert f * f <= f * 1.0;
      } else {
        assert f * f == (-f) * (-f);
        assert (-f) * (-f) <= (-f) * 1.0;
      }
    }
    calc {
      SquaredMag(Scaled(v, f));
      SquaredMag(v) * (f * f);
    <= SquaredMag(v) * 1.0;
    }
  }

  /** Independence of the axes: the x components after a step depend only on
      the scalars and on the x components before it. */
  lemma AxesIndependent(s: Scene, t: Scene, timestep: real)
    requires s.body.mass != 0.0
    requires s.body.mass == t.body.mass
    requires s.environment.springRate == t.environment.springRate
    requires s.environment.drag == t.environment.drag
    requires s.body.position.x == t.body.position.x && s.body.velocity.x == t.body.velocity.x
    requires s.environment.springEquilibriumPosition.x == t.environment.springEquilibriumPosition.x
    requires s.environment.gravityAcceleration.x == t.environment.gravityAcceleration.x
    ensures SceneTick(s, timestep).body.velocity.x == SceneTick(t, timestep).body.velocity.x
    ensures SceneTick(s, timestep).body.position.x == SceneTick(t, timestep).body.position.x
  {
    AccelerationDecomposition(s, timestep);
    AccelerationDecomposition(t, timestep);
    var rs := SceneTick(s, timestep);
    var rt := SceneTick(t, timestep);
    assert rs.body.acceleration.x == rt.body.acceleration.x;
    StepOnX(s, timestep);
    StepOnX(t, timestep);
    assert rs.body.velocity.x == rt.body.velocity.x;
    assert rs.body.position.x == rt.body.position.x;
  }

  /** The same for y: the y components after a step depend only on the
      scalars and on the y components before it. */
  lemma AxesIndependentY(s: Scene, t: Scene, timestep: real)
    requires s.body.mass != 0.0
    requires s.body.mass == t.body.mass
    requires s.environment.springRate == t.environment.springRate
    requires s.environment.drag == t.environment.drag
    requires s.body.position.y == t.body.position.y && s.body.velocity.y == t.body.velocity.y
    requires s.environment.springEquilibriumPosition.y == t.environment.springEquilibriumPosition.y
    requires s.environment.gravityAcceleration.y == t.environment.gravityAcceleration.y
    ensures SceneTick(s, timestep).body.velocity.y == SceneTick(t, timestep).body.velocity.y
    ensures SceneTick(s, timestep).body.position.y == SceneTick(t, timestep).body.position.y
  {
    AccelerationDecomposition(s, timestep);
    AccelerationDecomposition(t, timestep);
    var rs := SceneTick(s, timestep);
    var rt := SceneTick(t, timestep);
    assert rs.body.acceleration.y == rt.body.acceleration.y;
    StepOnY(s, timestep);
    StepOnY(t, timestep);
    assert rs.body.velocity.y == rt.body.velocity.y;
    assert rs.body.position.y == rt.body.position.y;
  }

  /** The x components of the step equations of `SceneTick`. */
  lemma StepOnX(s: Scene, timestep: real)
    requires s.body.mass != 0.0
    ensures SceneTick(s, timestep).body.velocity.x - s.body.velocity.x == SceneTick(s, timestep).body.acceleration.x * timestep
    ensures SceneTick(s, timestep).body.position.x - s.body.position.x == SceneTick(s, timestep).body.velocity.x * timestep
  {
    var r := SceneTick(s, timestep);
    assert Subtracted(r.body.velocity, s.body.velocity).x == Scaled(r.body.acceleration, timestep).x;
    assert Subtracted(r.body.position, s.body.position).x == Scaled(r.body.velocity, timestep).x;
  }

  /** The y components of the step equations of `SceneTick`. */
  lemma StepOnY(s: Scene, timestep: real)
    requires s.body.mass != 0.0
    ensures SceneTick(s, timestep).body.velocity.y - s.body.velocity.y == SceneTick(s, timestep).body.acceleration.y * timestep
    ensures SceneTick(s, timestep).body.position.y - s.body.position.y == SceneTick(s, timestep).body.velocity.y * timestep
  {
    var r := SceneTick(s, timestep);
    assert Subtracted(r.body.velocity, s.body.velocity).y == Scaled(r.body.acceleration, timestep).y;
    assert Subtracted(r.body.position, s.body.position).y == Scaled(r.body.velocity, timestep).y;
  }

  /** The worked example: unit mass, spring rate 30, drag 4, no gravity,
      equilibrium at the origin, released at rest from (15, 0). */
  predicate IsExampleScene(s: Scene) {
    && Mass(s) == 1.0 && SpringRate(s) == 30.0 && Drag(s) == 4.0
    && s.environment.gravityAcceleration == Zero
    && s.environment.springEquilibriumPosition == Zero
    && s.body.position == Vec2(15.0, 0.0) && s.body.velocity == Zero
  }

  /** One step of 1/30 s: acceleration -450, velocity -15, position 14.5. */
  lemma ExampleStep(s: Scene)
    requires IsExampleScene(s)
    ensures SceneTick(s, 1.0 / 30.0).body.acceleration == Vec2(-450.0, 0.0)
    ensures SceneTick(s, 1.0 / 30.0).body.velocity == Vec2(-15.0, 0.0)
    ensures SceneTick(s, 1.0 / 30.0).body.position == Vec2(14.5, 0.0)
  {
    ExampleAcceleration(s);
    ExampleVelocity(s);
    ExamplePosition(s);
  }

  /** At (15, 0), at rest, only the spring pulls: `30 * (0 - 15) = -450`. */
  lemma ExampleForces(s: Scene)
    requires IsExampleScene(s)
    ensures ForcesOnBody(s.environment, s.body) == Vec2(-450.0, 0.0)
  {
    ExampleSpringForce(s);
    ExampleGravityForce(s);
    ExampleDragForce(s);
  }

  lemma ExampleSpringForce(s: Scene)
    requires IsExampleScene(s)
    ensures SpringForce(s.environment, s.body.position) == Vec2(-450.0, 0.0)
  {
    ExampleDisplacement(s);
    ExampleSpringScale();
  }

  /** The body sits 15 to the right of the equilibrium. */
  lemma ExampleDisplacement(s: Scene)
    requires IsExampleScene(s)
    ensures Subtracted(s.environment.springEquilibriumPosition, s.body.position) == Vec2(-15.0, 0.0)
  {
  }

  /** Hooke's law at that displacement: `30 * -15 = -450`. */
  lemma ExampleSpringScale()
    ensures Scaled(Vec2(-15.0, 0.0), 30.0) == Vec2(-450.0, 0.0)
  {
  }

  lemma ExampleGravityForce(s: Scene)
    requires IsExampleScene(s)
    ensures GravityForce(s.environment, s.body.mass) == Zero
  {
    ScaledZero(1.0);
  }

  lemma ExampleDragForce(s: Scene)
    requires IsExampleScene(s)
    ensures DragForce(s.environment, s.body.velocity) == Zero
  {
    ScaledZero(-4.0);
  }

  lemma ExampleAcceleration(s: Scene)
    requires IsExampleScene(s)
    ensures SceneTick(s, 1.0 / 30.0).body.acceleration == Vec2(-450.0, 0.0)
  {
    var a := SceneTick(s, 1.0 / 30.0).body.acceleration;
    ExampleForces(s);
    assert Scaled(a, 1.0) == Vec2(-450.0, 0.0);
    assert a.x * 1.0 == -450.0 && a.y * 1.0 == 0.0;
  }

  lemma ExampleVelocity(s: Scene)
    requires IsExampleScene(s)
    ensures SceneTick(s, 1.0 / 30.0).body.velocity == Vec2(-15.0, 0.0)
  {
    var r := SceneTick(s, 1.0 / 30.0);
    ExampleAcceleration(s);
    assert Subtracted(r.body.velocity, Zero) == Scaled(Vec2(-450.0, 0.0), 1.0 / 30.0);
  }

  lemma ExamplePosition(s: Scene)
    requires IsExampleScene(s)
    ensures SceneTick(s, 1.0 / 30.0).body.position == Vec2(14.5, 0.0)
  {
    var r := SceneTick(s, 1.0 / 30.0);
    ExampleVelocity(s);
    assert Subtracted(r.body.position, Vec2(15.0, 0.0)) == Scaled(Vec2(-15.0, 0.0), 1.0 / 30.0);
  }

  /** The worked example is reachable through the public setters from a
      freshly constructed scene. */
  lemma ExampleSceneFromSetters()
    ensures IsExampleScene(
      SetPosition(SetGravityAcceleration(SetDrag(SetSpringRate(SetMass(NewScene(), 1.0), 30.0), 4.0), 0.0, 0.0), 15.0, 0.0))
  {
  }
}

=== FILE: physics.dfy ===
/** The physics core of rustwasm/src/lib.rs: one point mass (`Body`) in an
    environment of forces (`BodyForces`), together forming a `Scene` that the
    host steps with `tick` and edits through setters and getters.

    The Rust core mutates `&mut self`; here every operation is a pure function
    returning the new `Scene`. All f32 arithmetic is exact real arithmetic. */
module Physics {
  import opened Vector

  /** The environment: a spring towards an equilibrium point, a uniform
      gravitational acceleration and linear drag. */
  datatype BodyForces = BodyForces(
    springRate: real,
    springEquilibriumPosition: Vec2,
    gravityAcceleration: Vec2,
    drag: real
  )

  /** The point mass. `acceleration` and `incomingForce` are the values left
      behind by the last step. */
  datatype Body = Body(
    mass: real,
    position: Vec2,
    velocity: Vec2,
    acceleration: Vec2,
    incomingForce: Vec2
  )

  datatype Scene = Scene(environment: BodyForces, body: Body)

  // ---------------------------------------------------------------------------
  // Construction

  function NewBodyForces(): BodyForces {
    BodyForces(100.0, Zero, Vec2(0.0, -9.81), 0.5)
  }

  function NewBody(): Body {
    Body(1.0, Zero, Zero, Zero, Zero)
  }

  /** `Scene::new`: a unit mass at rest at the origin, which is also the
      spring's equilibrium, under standard downward gravity. */
  function NewScene(): (r: Scene)
    ensures Mass(r) == 1.0
    ensures PositionX(r) == 0.0 && PositionY(r) == 0.0
    ensures VelocityX(r) == 0.0 && VelocityY(r) == 0.0
    ensures SpringRate(r) == 100.0
    ensures r.environment.springEquilibriumPosition == Zero
    ensures GravityAccelerationX(r) == 0.0 && GravityAccelerationY(r) == -9.81
    ensures Drag(r) == 0.5
    ensures r.body.acceleration == Zero && r.body.incomingForce == Zero
  {
    Scene(NewBodyForces(), NewBody())
  }

  // ---------------------------------------------------------------------------
  // Forces

  /** The spring force as the core builds it: the direction from the body to
      the equilibrium, given the length `spring_rate * dist`. `dist` is the
      distance between the two points, which the core gets from `hypot`. */
  function SpringForceAsWritten(env: BodyForces, position: Vec2, dist: real): Vec2
    requires IsDistance(dist, env.springEquilibriumPosition, position)
  {
    DistanceSymmetric(dist, env.springEquilibriumPosition, position);
    WithMag(Subtracted(env.springEquilibriumPosition, position), env.springRate * dist, dist)
  }

  /** The spring force in closed form: Hooke's law, `k * (eq - pos)`. */
  function SpringForce(env: BodyForces, position: Vec2): Vec2 {
    Scaled(Subtracted(env.springEquilibriumPosition, position), env.springRate)
  }

  /** Gravity given as an acceleration, turned into a force by the mass. */
  function GravityForce(env: BodyForces, mass: real): Vec2 {
    Scaled(env.gravityAcceleration, mass)
  }

  /** Linear drag, opposite to the velocity. */
  function DragForce(env: BodyForces, velocity: Vec2): Vec2 {
    Scaled(velocity, -env.drag)
  }

  /** `forces_on_body`, with the spring force in closed form. */
  function ForcesOnBody(env: BodyForces, body: Body): Vec2 {
    Added(Added(SpringForce(env, body.position), GravityForce(env, body.mass)),
          DragForce(env, body.velocity))
  }

  /** `forces_on_body` exactly as the core builds it, `with_mag` included. */
  function ForcesOnBodyAsWritten(env: BodyForces, body: Body, dist: real): Vec2
    requires IsDistance(dist, env.springEquilibriumPosition, body.position)
  {
    Added(Added(SpringForceAsWritten(env, body.position, dist), GravityForce(env, body.mass)),
          DragForce(env, body.velocity))
  }

  /** Whatever the distance `hypot` reports (as long as it is the distance),
      the core's `with_mag` construction of the spring force is Hooke's law,
      also when the body sits exactly on the equilibrium (zero direction). */
  lemma SpringForceMatchesSource(env: BodyForces, position: Vec2, dist: real)
    requires IsDistance(dist, env.springEquilibriumPosition, position)
    ensures SpringForceAsWritten(env, position, dist) == SpringForce(env, position)
  {
    DistanceSymmetric(dist, env.springEquilibriumPosition, position);
    WithMagOfScaledMagnitude(Subtracted(env.springEquilibriumPosition, position), env.springRate, dist);
  }

  /** Hence the closed-form force sum is the core's force sum. */
  lemma ForcesOnBodyMatchesSource(env: BodyForces, body: Body, dist: real)
    requires IsDistance(dist, env.springEquilibriumPosition, body.position)
    ensures ForcesOnBodyAsWritten(env, body, dist) == ForcesOnBody(env, body)
  {
    SpringForceMatchesSource(env, body.position, dist);
  }

  /** At the equilibrium point the spring pulls with zero force. */
  lemma SpringForceZeroAtEquilibrium(env: BodyForces)
    ensures SpringForce(env, env.springEquilibriumPosition) == Zero
  {
  }

  /** With a non-negative rate the spring force is restoring: it never has a
      component along the displacement from the equilibrium. */
  lemma SpringForceRestoring(env: BodyForces, position: Vec2)
    requires env.springRate >= 0.0
    ensures Dot(SpringForce(env, position), Subtracted(position, env.springEquilibriumPosition)) <= 0.0
  {
    var d := Subtracted(position, env.springEquilibriumPosition);
    var k := env.springRate;
    assert SpringForce(env, position) == Scaled(d, -k);
    SquareNonNegative(d.x);
    SquareNonNegative(d.y);
    calc {
      Dot(Scaled(d, -k), d);
      (d.x * -k) * d.x + (d.y * -k) * d.y;
      { assert (d.x * -k) * d.x == -(k * (d.x * d.x));
        assert (d.y * -k) * d.y == -(k * (d.y * d.y)); }
      -(k * (d.x * d.x)) - k * (d.y * d.y);
      -(k * (d.x * d.x + d.y * d.y));
    }
    assert k * (d.x * d.x + d.y * d.y) >= 0.0;
  }

  /** Hooke's law in magnitude (`F = k * x`, the comment at
      rustwasm/src/lib.rs:91): the spring force is `k` times the distance. */
  lemma SpringForceMagnitude(env: BodyForces, position: Vec2, dist: real)
    requires IsDistance(dist, env.springEquilibriumPosition, position)
    requires env.springRate >= 0.0
    ensures IsMagnitudeOf(env.springRate * dist, SpringForce(env, position))
  {
    var k := env.springRate;
    var u := Subtracted(env.springEquilibriumPosition, position);
    DistanceSymmetric(dist, env.springEquilibriumPosition, position);
    assert dist * dist == SquaredMag(u);
    calc {
      SquaredMag(SpringForce(env, position));
      { ScaledSquaredMag(u, k); }
      SquaredMag(u) * (k * k);
      (dist * dist) * (k * k);
      (k * dist) * (k * dist);
    }
    assert k * dist >= 0.0;
  }

  /** With a non-negative coefficient drag never speeds the body up. */
  lemma DragForceOpposesVelocity(env: BodyForces, velocity: Vec2)
    requires env.drag >= 0.0
    ensures Dot(DragForce(env, velocity), velocity) <= 0.0
  {
    var c := env.drag;
    var v := velocity;
    SquareNonNegative(v.x);
    SquareNonNegative(v.y);
    calc {
      Dot(Scaled(v, -c), v);
      (v.x * -c) * v.x + (v.y * -c) * v.y;
      { assert (v.x * -c) * v.x == -(c * (v.x * v.x));
        assert (v.y * -c) * v.y == -(c * (v.y * v.y)); }
      -(c * (v.x * v.x)) - c * (v.y * v.y);
      -(c * (v.x * v.x + v.y * v.y));
    }
    assert c * (v.x * v.x + v.y * v.y) >= 0.0;
  }

  // ---------------------------------------------------------------------------
  // Stepping

  /** `Body::tick`, semi-implicit Euler: the acceleration comes from the force
      stored in the body (`F = m a`), the velocity is advanced first
      (`dv = a dt`) and the position is advanced with the NEW velocity
      (`ds = v dt`). The core divides by the mass unchecked; over the reals
      that needs a non-zero mass. */
  function BodyTick(b: Body, timestep: real): (r: Body)
    requires b.mass != 0.0
    ensures Scaled(r.acceleration, b.mass) == b.incomingForce
    ensures Subtracted(r.velocity, b.velocity) == Scaled(r.acceleration, timestep)
    ensures Subtracted(r.position, b.position) == Scaled(r.velocity, timestep)
    ensures r.mass == b.mass && r.incomingForce == b.incomingForce
  {
    var acceleration := Scaled(b.incomingForce, 1.0 / b.mass);
    InverseMassRecoversForce(b.incomingForce, b.mass);
    var velocity := Added(b.velocity, Scaled(acceleration, timestep));
    var position := Added(b.position, Scaled(velocity, timestep));
    b.(acceleration := acceleration, velocity := velocity, position := position)
  }

  lemma InverseMassRecoversForce(f: Vec2, mass: real)
    requires mass != 0.0
    ensures Scaled(Scaled(f, 1.0 / mass), mass) == f
  {
    var inv := 1.0 / mass;
    assert inv * mass == 1.0;
    calc {
      (f.x * inv) * mass;
      f.x * (inv * mass);
      f.x;
    }
    calc {
      (f.y * inv) * mass;
      f.y * (inv * mass);
      f.y;
    }
  }

  /** `Scene::tick`: store the forces of the environment on the body as it is
      before the step, then step the body. The environment is untouched. */
  function SceneTick(s: Scene, timestep: real): (r: Scene)
    requires s.body.mass != 0.0
    ensures r.environment == s.environment
    ensures r.body.mass == s.body.mass
    ensures r.body.incomingForce == ForcesOnBody(s.environment, s.body)
    ensures Scaled(r.body.acceleration, s.body.mass) == r.body.incomingForce
    ensures Subtracted(r.body.velocity, s.body.velocity) == Scaled(r.body.acceleration, timestep)
    ensures Subtracted(r.body.position, s.body.position) == Scaled(r.body.velocity, timestep)
  {
    var loaded := s.body.(incomingForce := ForcesOnBody(s.environment, s.body));
    s.(body := BodyTick(loaded, timestep))
  }

  // ---------------------------------------------------------------------------
  // Getters

  function PositionX(s: Scene): real { s.body.position.x }
  function PositionY(s: Scene): real { s.body.position.y }
  function VelocityX(s: Scene): real { s.body.velocity.x }
  function VelocityY(s: Scene): real { s.body.velocity.y }
  function Mass(s: Scene): real { s.body.mass }
  function SpringRate(s: Scene): real { s.environment.springRate }
  function GravityAccelerationX(s: Scene): real { s.environment.gravityAcceleration.x }
  function GravityAccelerationY(s: Scene): real { s.environment.gravityAcceleration.y }
  function Drag(s: Scene): real { s.environment.drag }

  // ---------------------------------------------------------------------------
  // Setters. Each writes only its own fields; the derived fields
  // (`acceleration`, `incomingForce`) are left as the last step left them.

  /** The body's fields other than position and velocity agree. */
  predicate SameBodyParameters(a: Body, b: Body) {
    a.mass == b.mass && a.acceleration == b.acceleration && a.incomingForce == b.incomingForce
  }

  function SetPosition(s: Scene, x: real, y: real): (r: Scene)
    ensures PositionX(r) == x && PositionY(r) == y
    ensures r.body.velocity == s.body.velocity && SameBodyParameters(r.body, s.body)
    ensures r.environment == s.environment
  {
    s.(body := s.body.(position := Vec2(x, y)))
  }

  function SetVelocity(s: Scene, x: real, y: real): (r: Scene)
    ensures VelocityX(r) == x && VelocityY(r) == y
    ensures r.body.position == s.body.position && SameBodyParameters(r.body, s.body)
    ensures r.environment == s.environment
  {
    s.(body := s.body.(velocity := Vec2(x, y)))
  }

  function SetMass(s: Scene, mass: real): (r: Scene)
    ensures Mass(r) == mass
    ensures r.body.position == s.body.position && r.body.velocity == s.body.velocity
    ensures r.body.acceleration == s.body.acceleration && r.body.incomingForce == s.body.incomingForce
    ensures r.environment == s.environment
  {
    s.(body := s.body.(mass := mass))
  }

  function SetSpringRate(s: Scene, springRate: real): (r: Scene)
    ensures SpringRate(r) == springRate
    ensures r.environment.springEquilibriumPosition == s.environment.springEquilibriumPosition
    ensures r.environment.gravityAcceleration == s.environment.gravityAcceleration
    ensures r.environment.drag == s.environment.drag
    ensures r.body == s.body
  {
    s.(environment := s.environment.(springRate := springRate))
  }

  function SetSpringEquilibriumPosition(s: Scene, x: real, y: real): (r: Scene)
    ensures r.environment.springEquilibriumPosition.x == x
    ensures r.environment.springEquilibriumPosition.y == y
    ensures SpringRate(r) == SpringRate(s) && Drag(r) == Drag(s)
    ensures r.environment.gravityAcceleration == s.environment.gravityAcceleration
    ensures r.body == s.body
  {
    s.(environment := s.environment.(springEquilibriumPosition := Vec2(x, y)))
  }

  function SetGravityAcceleration(s: Scene, x: real, y: real): (r: Scene)
    ensures GravityAccelerationX(r) == x && GravityAccelerationY(r) == y
    ensures SpringRate(r) == SpringRate(s) && Drag(r) == Drag(s)
    ensures r.environment.springEquilibriumPosition == s.environment.springEquilibriumPosition
    ensures r.body == s.body
  {
    s.(environment := s.environment.(gravityAcceleration := Vec2(x, y)))
  }

  /** Sets the x component of gravity only; the y component is untouched. */
  function SetGravityAccelerationX(s: Scene, x: real): (r: Scene)
    ensures GravityAccelerationX(r) == x
    ensures GravityAccelerationY(r) == GravityAccelerationY(s)
    ensures SpringRate(r) == SpringRate(s) && Drag(r) == Drag(s)
    ensures r.environment.springEquilibriumPosition == s.environment.springEquilibriumPosition
    ensures r.body == s.body
  {
    s.(environment := s.environment.(gravityAcceleration := s.environment.gravityAcceleration.(x := x)))
  }

  /** Sets the y component of gravity only; the x component is untouched. */
  function SetGravityAccelerationY(s: Scene, y: real): (r: Scene)
    ensures GravityAccelerationY(r) == y
    ensures GravityAccelerationX(r) == GravityAccelerationX(s)
    ensures SpringRate(r) == SpringRate(s) && Drag(r) == Drag(s)
    ensures r.environment.springEquilibriumPosition == s.environment.springEquilibriumPosition
    ensures r.body == s.body
  {
    s.(environment := s.environment.(gravityAcceleration := s.environment.gravityAcceleration.(y := y)))
  }

  function SetDrag(s: Scene, drag: real): (r: Scene)
    ensures Drag(r) == drag
    ensures SpringRate(r) == SpringRate(s)
    ensures r.environment.springEquilibriumPosition == s.environment.springEquilibriumPosition
    ensures r.environment.gravityAcceleration == s.environment.gravityAcceleration
    ensures r.body == s.body
  {
    s.(environment := s.environment.(drag := drag))
  }

  /** The two per-axis gravity setters, in either order, do what the paired
      setter does. */
  lemma GravityAxisSettersComposeToPair(s: Scene, x: real, y: real)
    ensures SetGravityAccelerationY(SetGravityAccelerationX(s, x), y) == SetGravityAcceleration(s, x, y)
    ensures SetGravityAccelerationX(SetGravityAccelerationY(s, y), x) == SetGravityAcceleration(s, x, y)
  {
  }

  /** Writing back what a getter reads changes nothing. */
  lemma SettersOfCurrentValuesAreIdentity(s: Scene)
    ensures SetPosition(s, PositionX(s), PositionY(s)) == s
    ensures SetVelocity(s, VelocityX(s), VelocityY(s)) == s
    ensures SetMass(s, Mass(s)) == s
    ensures SetSpringRate(s, SpringRate(s)) == s
    ensures SetGravityAcceleration(s, GravityAccelerationX(s), GravityAccelerationY(s)) == s
    ensures SetDrag(s, Drag(s)) == s
  {
  }
}

=== FILE: vector.dfy ===
/** Two-component vectors over the reals: the `[f32; 2]` arrays of the physics
    core and the helper methods of its `Vector` trait (rustwasm/src/lib.rs).

    Every f32 operation becomes the exact real operation. The core's `mag` and
    `dist` are `hypot` calls; Dafny has no square root, so a magnitude is never
    computed here. It is passed in instead, and `IsMagnitudeOf` pins it down:
    a non-negative real whose square is the sum of the squared components. */
module Vector {

  datatype Vec2 = Vec2(x: real, y: real)

  const Zero: Vec2 := Vec2(0.0, 0.0)

  function Scaled(v: Vec2, scalar: real): Vec2 {
    Vec2(v.x * scalar, v.y * scalar)
  }

  function Added(a: Vec2, b: Vec2): Vec2 {
    Vec2(a.x + b.x, a.y + b.y)
  }

  function Subtracted(a: Vec2, b: Vec2): Vec2 {
    Vec2(a.x - b.x, a.y - b.y)
  }

  function SquaredMag(v: Vec2): real {
    v.x * v.x + v.y * v.y
  }

  /** Dot product, used to say in which direction a force acts. */
  function Dot(a: Vec2, b: Vec2): real {
    a.x * b.x + a.y * b.y
  }

  /** `m` is the Euclidean length of `v`, the value `mag` (hypot) returns. */
  predicate IsMagnitudeOf(m: real, v: Vec2) {
    m >= 0.0 && m * m == SquaredMag(v)
  }

  /** `d` is what `from.dist(to)` returns: the length of `to - from`. */
  predicate IsDistance(d: real, from: Vec2, to: Vec2) {
    IsMagnitudeOf(d, Subtracted(to, from))
  }

  /** Only the zero vector has squared length zero. */
  lemma ZeroSquaredMagIsZero(v: Vec2)
    requires SquaredMag(v) == 0.0
    ensures v == Zero
  {
    SquareNonNegative(v.x);
    SquareNonNegative(v.y);
    if v.x != 0.0 {
      SquarePositive(v.x);
      calc {
        SquaredMag(v);
        v.x * v.x + v.y * v.y;
      >= v.x * v.x;
      > 0.0;
      }
    } else if v.y != 0.0 {
      SquarePositive(v.y);
      calc {
        SquaredMag(v);
        v.x * v.x + v.y * v.y;
      >= v.y * v.y;
      > 0.0;
      }
    }
  }

  lemma SquareNonNegative(a: real)
    ensures a * a >= 0.0
  {
    if a < 0.0 {
      assert a * a == (-a) * (-a);
    }
  }

  lemma SquarePositive(a: real)
    requires a != 0.0
    ensures a * a > 0.0
  {
    if a < 0.0 {
      assert a * a == (-a) * (-a);
    }
  }

  /** Scaling a vector by `s` scales its squared length by `s * s`. */
  lemma ScaledSquaredMag(v: Vec2, s: real)
    ensures SquaredMag(Scaled(v, s)) == SquaredMag(v) * (s * s)
  {
    calc {
      SquaredMag(Scaled(v, s));
      (v.x * s) * (v.x * s) + (v.y * s) * (v.y * s);
      { assert (v.x * s) * (v.x * s) == (v.x * v.x) * (s * s);
        assert (v.y * s) * (v.y * s) == (v.y * v.y) * (s * s); }
      (v.x * v.x) * (s * s) + (v.y * v.y) * (s * s);
      SquaredMag(v) * (s * s);
    }
  }

  /** Distance is symmetric: `a.dist(b)` and `b.dist(a)` agree. */
  lemma DistanceSymmetric(d: real, a: Vec2, b: Vec2)
    ensures IsDistance(d, a, b) <==> IsDistance(d, b, a)
  {
    var u := Subtracted(b, a);
    assert Subtracted(a, b) == Scaled(u, -1.0);
    ScaledSquaredMag(u, -1.0);
  }

  /** `normalized`: the zero vector when the magnitude is 0, otherwise the
      vector scaled by the reciprocal of its magnitude. The result is a unit
      vector (or zero) pointing the same way: scaling it back by the
      magnitude gives the input. */
  function Normalized(v: Vec2, mag: real): (r: Vec2)
    requires IsMagnitudeOf(mag, v)
    ensures mag == 0.0 ==> r == Zero && v == Zero
    ensures mag != 0.0 ==> SquaredMag(r) == 1.0
    ensures Scaled(r, mag) == v
  {
    if mag == 0.0 then
      ZeroSquaredMagIsZero(v);
      Zero
    else
      UnitAfterScaling(v, mag);
      Scaled(v, 1.0 / mag)
  }

  lemma UnitAfterScaling(v: Vec2, mag: real)
    requires IsMagnitudeOf(mag, v) && mag != 0.0
    ensures SquaredMag(Scaled(v, 1.0 / mag)) == 1.0
    ensures Scaled(Scaled(v, 1.0 / mag), mag) == v
  {
    var inv := 1.0 / mag;
    assert inv * mag == 1.0;
    calc {
      SquaredMag(Scaled(v, inv));
      { ScaledSquaredMag(v, inv); }
      SquaredMag(v) * (inv * inv);
      (mag * mag) * (inv * inv);
      (mag * inv) * (mag * inv);
      1.0;
    }
    calc {
      (v.x * inv) * mag;
      v.x * (inv * mag);
      v.x;
    }
    calc {
      (v.y * inv) * mag;
      v.y * (inv * mag);
      v.y;
    }
  }

  /** `with_mag`: the direction of `v` with length `|m|`, or the zero vector
      when `v` itself is zero. */
  function WithMag(v: Vec2, m: real, vMag: real): (r: Vec2)
    requires IsMagnitudeOf(vMag, v)
    ensures vMag == 0.0 ==> r == Zero
    ensures vMag != 0.0 ==> SquaredMag(r) == m * m
    ensures vMag != 0.0 ==> r == Scaled(v, m / vMag)
  {
    var n := Normalized(v, vMag);
    if vMag == 0.0 then
      ScaledZero(m);
      Scaled(n, m)
    else
      UnitScaledLength(n, m);
      ReciprocalThenScale(v, vMag, m);
      Scaled(n, m)
  }

  /** Scaling by `1 / d` and then by `m` is scaling by `m / d`. */
  lemma ReciprocalThenScale(v: Vec2, d: real, m: real)
    requires d != 0.0
    ensures Scaled(Scaled(v, 1.0 / d), m) == Scaled(v, m / d)
  {
    assert (1.0 / d) * m == m / d;
    calc {
      (v.x * (1.0 / d)) * m;
      v.x * ((1.0 / d) * m);
      v.x * (m / d);
    }
    calc {
      (v.y * (1.0 / d)) * m;
      v.y * ((1.0 / d) * m);
      v.y * (m / d);
    }
  }

  lemma ScaledZero(m: real)
    ensures Scaled(Zero, m) == Zero
  {
  }

  lemma UnitScaledLength(n: Vec2, m: real)
    requires SquaredMag(n) == 1.0
    ensures SquaredMag(Scaled(n, m)) == m * m
  {
    calc {
      SquaredMag(Scaled(n, m));
      { ScaledSquaredMag(n, m); }
      SquaredMag(n) * (m * m);
      1.0 * (m * m);
    }
  }

  /** Giving a vector the length `k * |v|` is the same as scaling it by `k`,
      also when `v` is zero (thanks to the zero branch of `normalized`). */
  lemma WithMagOfScaledMagnitude(v: Vec2, k: real, vMag: real)
    requires IsMagnitudeOf(vMag, v)
    ensures WithMag(v, k * vMag, vMag) == Scaled(v, k)
  {
    var n := Normalized(v, vMag);
    if vMag == 0.0 {
      assert v == Zero;
      ScaledZero(k);
    } else {
      assert Scaled(n, vMag) == v;
      calc {
        n.x * (k * vMag);
        (n.x * vMag) * k;
        v.x * k;
      }
      calc {
        n.y * (k * vMag);
        (n.y * vMag) * k;
        v.y * k;
      }
    }
  }
}
